=== FILE: README.md ===
# track-alerts webhook, modelled in Dafny

`app.py` is a small Flask service that receives 17TRACK webhook calls on
`POST /webhook/17track`. It checks the `sign` header against
`sha256("<raw body>/<API key>")`. It ignores every event except
`TRACKING_UPDATED`, and reads the latest status out of the payload. When the
(main status, sub status) pair is on its alert lists, it e-mails an alert.

The model is pure. Each request is one call of `Webhook.Handle`, which returns
the HTTP reply together with the alert e-mail (subject and body) that was
handed over for sending, if any. `Webhook.Process` is the part of the handler
that runs after the signature has been accepted.

- `PyJson`: decoded JSON values as Python sees them, with integers and
  floats kept apart. It defines truthiness, `v or d`, `dict.get`, `in` on a
  set of strings, and `str()`.
- `TextNorm`: `str.lower()` and `str.strip()` over ASCII, applied to the
  received signature.
- `Status`: the two constant sets `BAD_MAIN` and `BAD_SUB`, and `is_bad`.
- `TrackingEvent`: the tracking-update payload as a typed record in which any
  field may be absent, the JSON object it travels as, the predicate `Carries`
  (a payload holds the event's fields and any further keys), and the reference
  predicate `Alertable`.
- `Webhook`: the handler and its properties. Four things the model takes as
  given are fields of `Host`: the SHA-256 hex digest, Python's `str()` of
  numbers, lists and dicts, the result of `send_alert_email`, and the API key.

Three things in the handler can raise, and each ends in the framework's 500
reply. The model keeps all three as explicit outcomes:

- `.get` on a value that is not a dict raises `AttributeError`. A body that
  parses to a truthy non-dict, such as `[1]` or `"x"`, raises at
  `payload.get` (app.py:69). Only falsy parse results are replaced by `{}`
  (app.py:68). A `data` field that is present but not a dict, such as `null`,
  raises at `data.get` (app.py:73). So does a truthy non-dict `track_info` or
  `latest_status` (app.py:75-77).
- `in` on a list or dict raises `TypeError`. This happens when the main
  status is a list or dict (app.py:35), or when the main status is in
  `BAD_MAIN` and the sub status is a non-empty list or dict (app.py:38). A main
  status outside `BAD_MAIN` returns before the sub status is tested, and an
  empty list or dict sub status is replaced by `""`, so neither raises.
- `send_alert_email` raises when delivery fails (app.py:47-51). Nothing
  catches the exception. `Host.sendAlert` returns false for this case.

An authenticated request therefore gets 200 when its payload is a dict whose
`data` is a dict or absent, whose `track_info` and `latest_status` are dicts
or falsy, whose `number`, `status` and `sub_status` are strings, `null` or
absent, and any alert goes out. `Webhook.TrackingEventOutcome` proves this for
every payload that carries a tracking event (`TrackingEvent.Carries`),
whichever of the event's fields are absent or `null` and whatever further keys
the payload holds. `Webhook.FalsyStatusObjectDefaults` states the `or {}` rule
for a falsy `track_info` or `latest_status` on its own.

## Model

| member | source | states |
|---|---|---|
| `TextNorm.Lower` | app.py:62 | `.lower()` keeps the length, leaves no ASCII capital, and maps each character to its small form in place |
| `TextNorm.Strip` | app.py:62 | `.strip()` yields a string that neither starts nor ends with whitespace and that the input surrounds with whitespace only |
| `TextNorm.StripPadded` | app.py:62 | any `x` without edge whitespace, padded with whitespace on both sides, strips back to exactly `x` (so the strip result is unique) |
| `TextNorm.StripIdempotent` | app.py:62 | stripping twice equals stripping once |
| `TextNorm.StripAllSpace` | app.py:62 | a header made only of whitespace strips to the empty string |
| `TextNorm.LowerOfNoUpper` | app.py:62 | a string without capitals is unchanged by `.lower()`, so lowering is idempotent |
| `PyJson.Get` | app.py:69-77 | `v.get(key, d)` raises exactly when `v` is not a dict; otherwise it gives the stored value or the default |
| `PyJson.In` | app.py:35-38 | `v in names` raises exactly for an unhashable list or dict; otherwise it is true exactly for a member string |
| `Status.IsBad` | app.py:34-38 | true exactly when the main status is a string in BAD_MAIN and the sub status is a string in BAD_SUB; a hashable main status outside BAD_MAIN gives false whatever the sub status; raises exactly when the main status is a list or dict, or when the main status is in BAD_MAIN and the sub status is a non-empty list or dict |
| `Status.UnhashableSubStatusCases` | app.py:34-38 | a list sub status gives false after InTransit, an empty list sub status gives false after DeliveryFailure, a non-empty list sub status after DeliveryFailure raises, and a list main status raises |
| `Status.EmptySubIsNotBad` | app.py:20-29 | the empty string used for an absent sub status is not in BAD_SUB |
| `Status.IsBadOnOptionalStrings` | app.py:34-38 | on `str \| None` arguments, `is_bad` never raises and is true iff main is in BAD_MAIN and sub is present and in BAD_SUB |
| `Status.AbsentMainIsNotBad` | app.py:35-36 | an absent main status is never bad, whatever the sub status |
| `Status.ClassifierExamples` | app.py:19-38 | DeliveryFailure/DeliveryFailure_Rejected is bad; DeliveryFailure/SomeOtherSub, InTransit/anything and Exception/None are not |
| `PyJson.Str` | app.py:80-85 | in the alert text a string renders as itself, None as "None", and a boolean as "True" or "False"; numbers, lists and dicts render through `Host.show` |
| `Webhook.ReceivedSign` | app.py:62 | the normalised received signature has no capitals and no edge whitespace |
| `Webhook.Authentic` | app.py:63-65 | the check passes only for a non-empty received signature equal to `ComputedSign`, the digest of raw body + "/" + key (app.py:63); because only the received side is normalised, a match needs the digest to be non-empty and free of capitals and edge whitespace |
| `Webhook.Payload` | app.py:68 | a truthy parse result is used as it is; a failed parse or a falsy result becomes `{}` |
| `Webhook.Extract` | app.py:72-77 | the lookups raise only `AttributeError`, and always for a non-dict payload; a dict without `data` gives every field its default (None, and `{}` for the status object); a successful lookup ends on a dict. `ExtractCarried` proves which values it finds and `FalsyStatusObjectDefaults` the `or {}` rule |
| `Webhook.Compose` | app.py:80-86 | the subject is the fixed prefix followed by the tracking number (a string as itself, None as "None"); the body opens with the tracking line. `Process` states when it is used |
| `Webhook.Handle` | app.py:57-66 | 401 exactly when the signature check fails, and then no alert; an authenticated request's outcome is `Process` of its payload, so nothing but the header, raw body and key decides authentication |
| `Webhook.Process` | app.py:68-89 | after authentication the reply is only 200 or 500; a non-dict payload raises (500); a dict that is not a TRACKING_UPDATED event gets 200 and no alert; for a tracking update the alert is `Compose` of the extracted fields exactly when `is_bad` gives true, with 200 exactly when sending succeeded; when `is_bad` gives false the reply is 200 with no alert; when a lookup or membership test raises the reply is 500 with no alert, and that is the only way to get 500 without an alert |
| `Webhook.BlankSignRejected` | app.py:62-66 | a missing or whitespace-only `sign` header gives 401 and no alert, whatever the payload |
| `Webhook.CaseAndPaddingIgnored` | app.py:61-66 | a header holding the lowercase hex digest of raw body + "/" + key in any mix of cases, padded with whitespace, is accepted |
| `Webhook.UnusablePayloadAcknowledged` | app.py:68-70 | an authenticated body that does not parse, or parses to a falsy value, gets 200 and no alert |
| `TrackingEvent.ToJsonCarries` | app.py:72-77 | the JSON object built from a typed event carries that event |
| `Webhook.ExtractCarried` | app.py:72-77 | on any payload carrying a tracking event, the lookups succeed and find the event's number, status and sub status, with None for ones that are absent or `null`, a falsy `track_info` or `latest_status` standing for `{}`, whatever other keys the payload holds |
| `Webhook.FalsyStatusObjectDefaults` | app.py:72-77 | a `track_info` that is absent or falsy, or a `latest_status` that is absent or falsy inside a dict `track_info`, is replaced by `{}`: the lookups succeed with the number as found, both statuses None and an empty status object |
| `Webhook.TrackingEventOutcome` | app.py:68-89 | for any payload carrying a tracking event, with any of its fields absent or `null` and any further keys present, an alert is composed iff the event is `Alertable`; otherwise the reply is 200 with no alert; the alert subject is the prefix followed by the tracking number (or "None"), and the reply is 200 iff sending succeeded |
| `Webhook.NonDictDataRaises` | app.py:72-73 | a tracking update whose `data` is present but not a dict (e.g. `null`) gives 500 and no alert |
| `Webhook.RejectedDeliveryAlerts` | app.py:79-89 | a signed DeliveryFailure/DeliveryFailure_Rejected update for TN123 sends an alert whose subject names TN123, and the reply is 200 exactly when the relay accepts it |
| `Webhook.InTransitIsQuiet` | app.py:79-89 | a signed InTransit update with an empty sub status gets 200 and sends nothing |

## Left out

- SHA-256 (app.py:31-32) is the field `Host.sha256Hex`, with no properties assumed. Lemmas that need the digest to be lowercase hex say so in their `requires`.
- SMTP delivery in `send_alert_email` (app.py:40-51) is not modelled. That covers the From/To headers, the relay host, port and credentials, STARTTLS and login. `Host.sendAlert` only reports whether the call returned or raised.
- Loading the environment configuration (app.py:9-17) is not modelled. The API key is `Host.apiKey`, and the SMTP settings and recipients are used only by the delivery that is left out.
- Flask routing, `abort` and the liveness route `GET /` (app.py:53-55) are not modelled. The 500 reply stands for the framework's answer to an unhandled exception.
- The case-insensitive header lookup and a repeated `sign` header are not modelled. The request carries the value of the first `sign` header, if any.
- How `get_data(as_text=True)` decodes the body, and JSON parsing itself (duplicate keys, `NaN`), are not modelled. The request carries the body text and the result of `get_json(silent=True)`. That result is None when the body is not valid JSON, and also when the request's Content-Type is not JSON.
- `TextNorm.Lower` and `TextNorm.Strip` cover ASCII only. Python also lowercases non-ASCII capitals and strips non-ASCII whitespace (such as U+00A0 and U+2028).
- Python's `str()` of numbers, lists and dicts in the alert text is the field `Host.show`. Strings, `None` and booleans are rendered exactly. JSON integers and floats are separate values, so `show` can render `1` and `1.0` differently. Floats are exact reals rather than binary doubles, so the rounding of a float's value is not modelled.
- The commented-out policy "alert on any bad main status" (app.py:37) is not code, so it is not modelled.

=== FILE: pyjson.dfy ===
/** JSON values as the webhook handler sees them once Python's json module has
    decoded a request body, together with the few Python operations the handler
    applies to them: truthiness, `or`, `dict.get`, `in` on a set of strings and
    `str()`. */
module PyJson {

  datatype Option<T> = None | Some(value: T)

  /** A decoded JSON value. `JNull` is Python's `None`; a number written
      without fraction or exponent decodes to a Python `int`, any other to a
      `float`. */
  datatype Json =
    | JNull
    | JBool(b: bool)
    | JInt(i: int)
    | JFloat(f: real)
    | JStr(s: string)
    | JArr(items: seq<Json>)
    | JObj(fields: map<string, Json>)

  /** The exceptions the handler can raise on a payload of unexpected shape. */
  datatype Fault =
    | AttributeError  // `.get` on something that is not a dict
    | TypeError       // `in` with an unhashable list or dict

  /** The value of a Python expression, or the exception it raised. */
  datatype Result<T> = Ok(value: T) | Raise(fault: Fault)

  /** The empty dict `{}`. */
  const Empty: Json := JObj(map[])

  /** Python's `bool(v)`. */
  predicate Truthy(v: Json) {
    match v
    case JNull => false
    case JBool(b) => b
    case JInt(i) => i != 0
    case JFloat(f) => f != 0.0
    case JStr(s) => s != []
    case JArr(items) => items != []
    case JObj(fields) => fields != map[]
  }

  /** Python's `v or d`. */
  function Or(v: Json, d: Json): Json {
    if Truthy(v) then v else d
  }

  /** Python's `v.get(key, d)`: only a dict has `get`. */
  function Get(v: Json, key: string, d: Json): (r: Result<Json>)
    ensures r.Ok? <==> v.JObj?
    ensures r.Ok? && key in v.fields ==> r.value == v.fields[key]
    ensures r.Ok? && key !in v.fields ==> r.value == d
  {
    match v
    case JObj(fields) => Ok(if key in fields then fields[key] else d)
    case _ => Raise(AttributeError)
  }

  /** Lists and dicts cannot be hashed, so they cannot be looked up in a set. */
  predicate Hashable(v: Json) {
    !v.JArr? && !v.JObj?
  }

  /** Python's `v in names` for a set of strings: only a string can be a member,
      and an unhashable value raises before any comparison is made. */
  function In(v: Json, names: set<string>): (r: Result<bool>)
    ensures r.Raise? <==> !Hashable(v)
    ensures r == Ok(true) <==> v.JStr? && v.s in names
  {
    if !Hashable(v) then Raise(TypeError) else Ok(v.JStr? && v.s in names)
  }

  /** Python's `str(v)` as an f-string renders it. Strings, `None` and booleans
      are rendered exactly; numbers, lists and dicts are rendered by `show`. */
  function Str(show: Json -> string, v: Json): (r: string)
    ensures v.JStr? ==> r == v.s
    ensures v.JNull? ==> r == "None"
    ensures v.JBool? ==> r == (if v.b then "True" else "False")
    ensures !v.JStr? && !v.JNull? && !v.JBool? ==> r == show(v)
  {
    match v
    case JNull => "None"
    case JBool(b) => if b then "True" else "False"
    case JStr(s) => s
    case _ => show(v)
  }

  /** The Python value of a header or field that is either absent or a string. */
  function FromOption(o: Option<string>): Json {
    match o
    case None => JNull
    case Some(s) => JStr(s)
  }
}

=== FILE: status.dfy ===
/** The status classifier: which (main status, sub status) pairs reported by
    17TRACK raise an alert. */
module Status {
  import opened PyJson

  /** Main statuses that may raise an alert. */
  const BAD_MAIN: set<string> := {"DeliveryFailure", "Exception"}

  /** Sub statuses that do raise an alert once the main status is bad. */
  const BAD_SUB: set<string> := {
    "DeliveryFailure_Rejected",
    "DeliveryFailure_InvalidAddress",
    "DeliveryFailure_NoBody",
    "Exception_Returning",
    "Exception_Returned",
    "Exception_Rejected",
    "Exception_Lost",
    "Exception_Cancel"
  }

  /** `is_bad(main_status, sub_status)`: the main status must be in BAD_MAIN,
      and then the sub status, with a falsy one read as "", in BAD_SUB. The
      arguments are whatever the payload held, so `in` raises for a list or dict
      main status, and for a non-empty list or dict sub status when the main
      status is in BAD_MAIN; otherwise the sub status is never tested. */
  function IsBad(mainStatus: Json, subStatus: Json): (r: Result<bool>)
    // alertable exactly when both statuses are strings in their sets
    ensures r == Ok(true) <==>
      mainStatus.JStr? && mainStatus.s in BAD_MAIN && subStatus.JStr? && subStatus.s in BAD_SUB
    // a main status outside BAD_MAIN decides the answer before the sub status is looked at
    ensures Hashable(mainStatus) && !(mainStatus.JStr? && mainStatus.s in BAD_MAIN) ==> r == Ok(false)
    // it raises only for an unhashable main status, or a bad main status with a
    // non-empty list or dict as sub status
    ensures r.Raise? <==>
      !Hashable(mainStatus) ||
      (mainStatus.JStr? && mainStatus.s in BAD_MAIN && Truthy(subStatus) && !Hashable(subStatus))
  {
    match In(mainStatus, BAD_MAIN)
    case Raise(f) => Raise(f)
    case Ok(badMain) =>
      if !badMain then Ok(false) else In(Or(subStatus, JStr("")), BAD_SUB)
  }

  /** A list or dict sub status raises only when it is tested: a main status
      outside BAD_MAIN returns first, and an empty list or dict becomes "". */
  lemma UnhashableSubStatusCases()
    ensures IsBad(JStr("InTransit"), JArr([JInt(1)])) == Ok(false)
    ensures IsBad(JStr("DeliveryFailure"), JArr([])) == Ok(false)
    ensures IsBad(JStr("DeliveryFailure"), JArr([JInt(1)])) == Raise(TypeError)
    ensures IsBad(JArr([JStr("DeliveryFailure")]), JStr("DeliveryFailure_Rejected")) == Raise(TypeError)
  {
  }

  /** The empty string that stands for an absent sub status is not a bad sub status. */
  lemma EmptySubIsNotBad()
    ensures "" !in BAD_SUB
  {
  }

  /** On the arguments its signature names (`str | None`), `is_bad` never
      raises and is true exactly when the main status is in BAD_MAIN and the
      sub status is present and in BAD_SUB. */
  lemma IsBadOnOptionalStrings(mainStatus: Option<string>, subStatus: Option<string>)
    ensures IsBad(FromOption(mainStatus), FromOption(subStatus)) ==
      Ok(mainStatus.Some? && mainStatus.value in BAD_MAIN && subStatus.Some? && subStatus.value in BAD_SUB)
  {
  }

  /** An absent main status is never bad, whatever the sub status. */
  lemma AbsentMainIsNotBad(subStatus: Json)
    ensures IsBad(JNull, subStatus) == Ok(false)
  {
  }

  /** Worked cases: a listed failure pair alerts; an unlisted sub status, a main
      status outside BAD_MAIN, and "Exception" with no sub status do not. */
  lemma ClassifierExamples(anything: Json)
    ensures IsBad(JStr("DeliveryFailure"), JStr("DeliveryFailure_Rejected")) == Ok(true)
    ensures IsBad(JStr("DeliveryFailure"), JStr("SomeOtherSub")) == Ok(false)
    ensures IsBad(JStr("InTransit"), anything) == Ok(false)
    ensures IsBad(JStr("Exception"), JNull) == Ok(false)
  {
  }
}

=== FILE: textnorm.dfy ===
/** The two string normalisations the handler applies to the received
    signature, `str.lower()` and `str.strip()`, over ASCII. */
module TextNorm {

  /** Python's `str.isspace()` on ASCII: tab, line feed, vertical tab, form
      feed, carriage return, the separators 0x1C to 0x1F, and space. */
  predicate IsSpace(c: char) {
    c == ' ' || '\t' <= c <= '\r' || '\U{1C}' <= c <= '\U{1F}'
  }

  predicate AllSpace(s: string) {
    forall i :: 0 <= i < |s| ==> IsSpace(s[i])
  }

  /** Neither the first nor the last character is whitespace. */
  predicate NoEdgeSpace(s: string) {
    s == [] || (!IsSpace(s[0]) && !IsSpace(s[|s| - 1]))
  }

  predicate IsUpper(c: char) {
    'A' <= c <= 'Z'
  }

  predicate NoUpper(s: string) {
    forall i :: 0 <= i < |s| ==> !IsUpper(s[i])
  }

  /** A lowercase hexadecimal digit, as `hashlib`'s `hexdigest()` produces. */
  predicate IsLowerHexDigit(c: char) {
    '0' <= c <= '9' || 'a' <= c <= 'f'
  }

  predicate IsLowerHex(s: string) {
    forall i :: 0 <= i < |s| ==> IsLowerHexDigit(s[i])
  }

  function LowerChar(c: char): (d: char)
    ensures !IsUpper(d)
    ensures IsUpper(c) ==> d as int == c as int + 32
    ensures !IsUpper(c) ==> d == c
  {
    if IsUpper(c) then (c as int + 32) as char else c
  }

  /** `s.lower()`: every ASCII capital replaced by its small letter, every other
      character kept, in place. */
  function Lower(s: string): (r: string)
    ensures |r| == |s| && NoUpper(r)
    ensures forall i :: 0 <= i < |s| ==> r[i] == LowerChar(s[i])
  {
    seq(|s|, i requires 0 <= i < |s| => LowerChar(s[i]))
  }

  /** The number of whitespace characters at the front of `s`. */
  function LeadingSpace(s: string): (k: nat)
    ensures k <= |s|
    ensures forall i :: 0 <= i < k ==> IsSpace(s[i])
    ensures k == |s| || !IsSpace(s[k])
  {
    if s == [] || !IsSpace(s[0]) then 0 else 1 + LeadingSpace(s[1..])
  }

  /** The number of whitespace characters at the end of `s`. */
  function TrailingSpace(s: string): (k: nat)
    ensures k <= |s|
    ensures forall i :: |s| - k <= i < |s| ==> IsSpace(s[i])
    ensures k == |s| || !IsSpace(s[|s| - k - 1])
  {
    if s == [] || !IsSpace(s[|s| - 1]) then 0 else 1 + TrailingSpace(s[..|s| - 1])
  }

  /** `s.strip()`: `s` is the result with whitespace before and after it, and
      the result neither starts nor ends with whitespace. */
  function Strip(s: string): (r: string)
    ensures NoEdgeSpace(r)
    ensures LeadingSpace(s) + |r| <= |s|
    ensures r == s[LeadingSpace(s)..LeadingSpace(s) + |r|]
    ensures AllSpace(s[..LeadingSpace(s)]) && AllSpace(s[LeadingSpace(s) + |r|..])
  {
    var t := s[LeadingSpace(s)..];
    t[..|t| - TrailingSpace(t)]
  }

  lemma LowerAppend(a: string, b: string)
    ensures Lower(a + b) == Lower(a) + Lower(b)
  {
    assert forall i :: 0 <= i < |a + b| ==> Lower(a + b)[i] == (Lower(a) + Lower(b))[i];
  }

  /** Lowering leaves whitespace alone. */
  lemma LowerKeepsSpace(s: string)
    requires AllSpace(s)
    ensures Lower(s) == s
  {
  }

  /** A string without capitals is its own lowercase form: `lower()` is
      idempotent. */
  lemma LowerOfNoUpper(s: string)
    requires NoUpper(s)
    ensures Lower(s) == s
  {
  }

  /** Stripping a string that is `x` with whitespace around it gives `x`
      exactly, provided `x` itself has no whitespace at its ends. Together with
      the contract of Strip this says that `s.strip()` is the unique such `x`. */
  lemma {:induction false} StripPadded(ws1: string, x: string, ws2: string)
    requires AllSpace(ws1) && AllSpace(ws2) && NoEdgeSpace(x)
    ensures Strip(ws1 + x + ws2) == x
  {
    var s := ws1 + x + ws2;
    assert forall i :: 0 <= i < |ws1| ==> s[i] == ws1[i];
    assert forall i :: |ws1| + |x| <= i < |s| ==> s[i] == ws2[i - |ws1| - |x|];
    var k := LeadingSpace(s);
    if x == [] {
      assert AllSpace(s);
      assert k == |s|;
    } else {
      assert s[|ws1|] == x[0];
      assert k == |ws1|;
      var t := s[k..];
      assert t == x + ws2;
      assert forall i :: |x| <= i < |t| ==> t[i] == ws2[i - |x|];
      assert t[|x| - 1] == x[|x| - 1];
      var m := TrailingSpace(t);
      assert m == |ws2|;
      assert t[..|t| - m] == x;
    }
  }

  /** `strip()` is idempotent. */
  lemma StripIdempotent(s: string)
    ensures Strip(Strip(s)) == Strip(s)
  {
    StripPadded([], Strip(s), []);
    assert [] + Strip(s) + [] == Strip(s);
  }

  /** A string made of whitespace only strips to the empty string. */
  lemma StripAllSpace(s: string)
    requires AllSpace(s)
    ensures Strip(s) == []
  {
    StripPadded(s, [], []);
    assert s + [] + [] == s;
  }

  /** Stripping keeps a string free of capitals. */
  lemma StripNoUpper(s: string)
    requires NoUpper(s)
    ensures NoUpper(Strip(s))
  {
    var r, k := Strip(s), LeadingSpace(s);
    forall i | 0 <= i < |r| ensures !IsUpper(r[i]) {
      assert r[i] == s[k + i];
    }
  }
}

=== FILE: trackingevent.dfy ===
/** The payload 17TRACK sends for a tracking update, as a typed record in which
    every field may be absent, and the JSON object it is sent as. */
module TrackingEvent {
  import opened PyJson
  import opened Status

  datatype LatestStatus = LatestStatus(status: Option<string>, subStatus: Option<string>)
  datatype TrackInfo = TrackInfo(latestStatus: Option<LatestStatus>)
  datatype TrackData = TrackData(number: Option<string>, trackInfo: Option<TrackInfo>)
  datatype Event = Event(event: Option<string>, data: Option<TrackData>)

  /** The event name that carries a tracking update. */
  const TRACKING_UPDATED: string := "TRACKING_UPDATED"

  /** `m` with `key` added when a value is present, and left out otherwise. */
  function Put(m: map<string, Json>, key: string, v: Option<Json>): map<string, Json> {
    if v.Some? then m[key := v.value] else m
  }

  function StrField(o: Option<string>): Option<Json> {
    if o.Some? then Some(JStr(o.value)) else None
  }

  function LatestToJson(l: LatestStatus): Json {
    JObj(Put(Put(map[], "status", StrField(l.status)), "sub_status", StrField(l.subStatus)))
  }

  function TrackInfoToJson(t: TrackInfo): Json {
    JObj(Put(map[], "latest_status",
      if t.latestStatus.Some? then Some(LatestToJson(t.latestStatus.value)) else None))
  }

  function DataToJson(d: TrackData): Json {
    JObj(Put(Put(map[], "number", StrField(d.number)), "track_info",
      if d.trackInfo.Some? then Some(TrackInfoToJson(d.trackInfo.value)) else None))
  }

  /** The JSON object of an event: `{"event": …, "data": {"number": …,
      "track_info": {"latest_status": {"status": …, "sub_status": …}}}}`, with
      every absent field's key left out. */
  function ToJson(e: Event): Json {
    JObj(Put(Put(map[], "event", StrField(e.event)), "data",
      if e.data.Some? then Some(DataToJson(e.data.value)) else None))
  }

  /** `key` holds `v` when a value is present; otherwise the key is missing or
      holds `null`, which Python reads alike. */
  predicate Holds(m: map<string, Json>, key: string, v: Option<Json>) {
    if v.Some? then key in m && m[key] == v.value else key !in m || m[key] == JNull
  }

  /** A JSON value carries the status object `l`: the two status keys are as
      `l` says, and any other keys may be there too. */
  predicate CarriesLatest(v: Json, l: LatestStatus) {
    v.JObj? && Holds(v.fields, "status", StrField(l.status)) &&
    Holds(v.fields, "sub_status", StrField(l.subStatus))
  }

  predicate CarriesTrackInfo(v: Json, t: TrackInfo) {
    v.JObj? &&
    if t.latestStatus.Some? then
      "latest_status" in v.fields && CarriesLatest(v.fields["latest_status"], t.latestStatus.value)
    else "latest_status" !in v.fields || !Truthy(v.fields["latest_status"])
  }

  predicate CarriesData(v: Json, d: TrackData) {
    v.JObj? && Holds(v.fields, "number", StrField(d.number)) &&
    if d.trackInfo.Some? then
      "track_info" in v.fields && CarriesTrackInfo(v.fields["track_info"], d.trackInfo.value)
    else "track_info" !in v.fields || !Truthy(v.fields["track_info"])
  }

  /** A payload that carries the event `e`: every key the event names is
      present with the event's value; a string field the event leaves absent
      has no key or is `null`; an absent `track_info` or `latest_status` has no
      key or holds a falsy value (`null`, `{}`, `""`, `0`, …), which `or {}`
      replaces; and the objects may hold further keys of any kind (17TRACK sends
      the carrier, descriptions and more beside the fields read here). An absent
      `data` has no key, since a `null` there makes `data.get` raise. */
  predicate Carries(v: Json, e: Event) {
    v.JObj? && Holds(v.fields, "event", StrField(e.event)) &&
    if e.data.Some? then "data" in v.fields && CarriesData(v.fields["data"], e.data.value)
    else "data" !in v.fields
  }

  /** The JSON object of an event carries it. */
  lemma ToJsonCarries(e: Event)
    ensures Carries(ToJson(e), e)
  {
  }

  function NumberOf(e: Event): Option<string> {
    if e.data.Some? then e.data.value.number else None
  }

  function LatestOf(e: Event): Option<LatestStatus> {
    if e.data.Some? && e.data.value.trackInfo.Some? then e.data.value.trackInfo.value.latestStatus
    else None
  }

  function StatusOf(e: Event): Option<string> {
    if LatestOf(e).Some? then LatestOf(e).value.status else None
  }

  function SubStatusOf(e: Event): Option<string> {
    if LatestOf(e).Some? then LatestOf(e).value.subStatus else None
  }

  /** A tracking update whose latest status pair is on the alert lists. */
  predicate Alertable(e: Event) {
    e.event == Some(TRACKING_UPDATED) &&
    StatusOf(e).Some? && StatusOf(e).value in BAD_MAIN &&
    SubStatusOf(e).Some? && SubStatusOf(e).value in BAD_SUB
  }
}

=== FILE: webhook.dfy ===
/** The `POST /webhook/17track` handler: authenticate the request by its `sign`
    header, ignore everything but tracking updates, dig the latest status out of
    the payload, and compose and send an alert e-mail for an alertable status. */
module Webhook {
  import opened PyJson
  import opened TextNorm
  import opened Status
  import opened TrackingEvent

  /** The process configuration the handler reads, and the operations it calls
      that lie outside this model. */
  datatype Host = Host(
    apiKey: string,                       // TRACK17_API_KEY, the shared secret
    sha256Hex: string -> string,          // sha256_hex: hex digest of the UTF-8 text
    show: Json -> string,                 // Python's str() of numbers, lists and dicts
    sendAlert: (string, string) -> bool)  // send_alert_email(subject, body): false when it raises

  /** One webhook request: the `sign` header if present, the body as text, and
      what `get_json(silent=True)` gave (None when the body is not JSON or the
      Content-Type is not a JSON type). */
  datatype Request = Request(sign: Option<string>, rawBody: string, json: Option<Json>)

  datatype Reply = Reply(code: int, text: string)

  const Unauthorized: Reply := Reply(401, "invalid signature")
  const Acknowledged: Reply := Reply(200, "ok")
  /** What the web framework answers when the handler raises. */
  const InternalError: Reply := Reply(500, "Internal Server Error")

  /** The e-mail handed to `send_alert_email`. */
  datatype Alert = Alert(subject: string, body: string)

  /** The reply, and the alert composed and handed over for sending, if any. */
  datatype Outcome = Outcome(reply: Reply, alert: Option<Alert>)

  /** The status fields the handler extracts from a tracking update. */
  datatype Latest = Latest(number: Json, mainStatus: Json, subStatus: Json, latest: Json)

  /** The received signature, lowercased and stripped; a missing header counts as "". */
  function ReceivedSign(req: Request): (r: string)
    ensures NoUpper(r) && NoEdgeSpace(r)
  {
    var r := Strip(Lower(if req.sign.Some? then req.sign.value else ""));
    StripNoUpper(Lower(if req.sign.Some? then req.sign.value else ""));
    r
  }

  /** The signature 17TRACK computes: the digest of the raw body, a slash and the key. */
  function ComputedSign(host: Host, req: Request): string {
    host.sha256Hex(req.rawBody + "/" + host.apiKey)
  }

  /** The request passes the signature check. Only the received side is
      normalised, so a match needs the computed digest to be non-empty, free of
      capitals and free of edge whitespace, as a `hexdigest()` is. */
  predicate Authentic(host: Host, req: Request)
    ensures Authentic(host, req) ==>
      ComputedSign(host, req) != "" && NoUpper(ComputedSign(host, req)) && NoEdgeSpace(ComputedSign(host, req))
  {
    ReceivedSign(req) != "" && ReceivedSign(req) == ComputedSign(host, req)
  }

  /** `request.get_json(silent=True) or {}`. */
  function Payload(json: Option<Json>): (p: Json)
    // a truthy parse result is used as it is; anything else becomes `{}`
    ensures Truthy(p) <==> json.Some? && Truthy(json.value)
    ensures Truthy(p) ==> p == json.value
    ensures !Truthy(p) ==> p == Empty
  {
    if json.Some? && Truthy(json.value) then json.value else Empty
  }

  predicate IsTrackingUpdate(payload: Json) {
    payload.JObj? && "event" in payload.fields && payload.fields["event"] == JStr(TRACKING_UPDATED)
  }

  /** The field lookups of a tracking update: `data` defaults to `{}`, a falsy
      `track_info` or `latest_status` is replaced by `{}`, and absent `number`,
      `status` and `sub_status` are None. A `.get` on a value that is not a dict
      raises. */
  function Extract(payload: Json): (r: Result<Latest>)
    // only `.get` on a non-dict can go wrong here
    ensures !payload.JObj? ==> r == Raise(AttributeError)
    ensures r.Raise? ==> r.fault == AttributeError
    // what is looked up last is always a dict
    ensures r.Ok? ==> r.value.latest.JObj?
    // a dict without `data` has every field at its default
    ensures payload.JObj? && "data" !in payload.fields ==> r == Ok(Latest(JNull, JNull, JNull, Empty))
  {
    match Get(payload, "data", Empty)
    case Raise(f) => Raise(f)
    case Ok(data) =>
      match Get(data, "number", JNull)
      case Raise(f) => Raise(f)
      case Ok(number) =>
        match Get(data, "track_info", JNull)
        case Raise(f) => Raise(f)
        case Ok(trackInfo) =>
          match Get(Or(trackInfo, Empty), "latest_status", JNull)
          case Raise(f) => Raise(f)
          case Ok(latestStatus) =>
            var latest := Or(latestStatus, Empty);
            match Get(latest, "status", JNull)
            case Raise(f) => Raise(f)
            case Ok(mainStatus) =>
              match Get(latest, "sub_status", JNull)
              case Raise(f) => Raise(f)
              case Ok(subStatus) => Ok(Latest(number, mainStatus, subStatus, latest))
  }

  const SubjectPrefix: string := "\U{1F6A8} Shipment issue: "

  /** The alert e-mail for an alertable status. */
  function Compose(show: Json -> string, l: Latest): (a: Alert)
    // the subject is the fixed prefix followed by the tracking number as text
    ensures |SubjectPrefix| <= |a.subject| && a.subject[..|SubjectPrefix|] == SubjectPrefix
    ensures l.number.JStr? ==> a.subject[|SubjectPrefix|..] == l.number.s
    ensures l.number.JNull? ==> a.subject[|SubjectPrefix|..] == "None"
    // the body opens with the tracking number line
    ensures |TrackingLine(show, l)| <= |a.body| && a.body[..|TrackingLine(show, l)|] == TrackingLine(show, l)
  {
    var number := Str(show, l.number);
    var subject := SubjectPrefix + number;
    var rest := "\n" +
      "Main status: " + Str(show, l.mainStatus) + "\n" +
      "Sub status: " + Str(show, l.subStatus) + "\n\n" +
      "Latest status object:\n" + Str(show, l.latest) + "\n";
    var body := TrackingLine(show, l) + rest;
    assert subject[..|SubjectPrefix|] == SubjectPrefix && subject[|SubjectPrefix|..] == number;
    assert body[..|TrackingLine(show, l)|] == TrackingLine(show, l);
    Alert(subject, body)
  }

  /** The first line of the alert body, without its line break. */
  function TrackingLine(show: Json -> string, l: Latest): string {
    "Tracking: " + Str(show, l.number)
  }

  /** `webhook_17track()`: the signature check, then the payload. */
  function Handle(host: Host, req: Request): (o: Outcome)
    // 401 exactly when the signature check fails, and then nothing else happens
    ensures o.reply == Unauthorized <==> !Authentic(host, req)
    ensures !Authentic(host, req) ==> o.alert == None
    // an authenticated request is handled on its payload alone
    ensures Authentic(host, req) ==> o == Process(host, req.json)
  {
    if !Authentic(host, req) then Outcome(Unauthorized, None) else Process(host, req.json)
  }

  /** What `webhook_17track()` does once the signature has been accepted. */
  function Process(host: Host, json: Option<Json>): (o: Outcome)
    ensures o.reply in {Acknowledged, InternalError}
    // a payload that is not a dict makes `payload.get` raise
    ensures !Payload(json).JObj? ==> o == Outcome(InternalError, None)
    // a dict that is not a tracking update is acknowledged silently
    ensures Payload(json).JObj? && !IsTrackingUpdate(Payload(json)) ==> o == Outcome(Acknowledged, None)
    // an alert is composed only for a tracking update whose extracted status
    // pair is bad, and the reply is 200 exactly when sending it succeeded
    ensures o.alert.Some? ==>
      IsTrackingUpdate(Payload(json)) && Extract(Payload(json)).Ok? &&
      IsBad(Extract(Payload(json)).value.mainStatus, Extract(Payload(json)).value.subStatus) == Ok(true) &&
      (o.reply == Acknowledged <==> host.sendAlert(o.alert.value.subject, o.alert.value.body))
    // a tracking update whose status pair is bad gets the alert composed from
    // its fields, and one whose pair is not bad is acknowledged silently
    ensures (IsTrackingUpdate(Payload(json)) && Extract(Payload(json)).Ok? &&
             IsBad(Extract(Payload(json)).value.mainStatus, Extract(Payload(json)).value.subStatus) == Ok(true)) ==>
      o.alert == Some(Compose(host.show, Extract(Payload(json)).value))
    ensures (IsTrackingUpdate(Payload(json)) && Extract(Payload(json)).Ok? &&
             IsBad(Extract(Payload(json)).value.mainStatus, Extract(Payload(json)).value.subStatus) == Ok(false)) ==>
      o == Outcome(Acknowledged, None)
    // a tracking update whose lookups or membership tests raise gets 500
    ensures (IsTrackingUpdate(Payload(json)) &&
             (Extract(Payload(json)).Raise? ||
              IsBad(Extract(Payload(json)).value.mainStatus, Extract(Payload(json)).value.subStatus).Raise?)) ==>
      o == Outcome(InternalError, None)
    // without an alert, 500 comes only from a lookup or membership test that raised
    ensures o.alert.None? && o.reply == InternalError ==>
      !Payload(json).JObj? ||
      Extract(Payload(json)).Raise? ||
      IsBad(Extract(Payload(json)).value.mainStatus, Extract(Payload(json)).value.subStatus).Raise?
  {
    var payload := Payload(json);
    match Get(payload, "event", JNull)
    case Raise(_) => Outcome(InternalError, None)
    case Ok(event) =>
      if event != JStr(TRACKING_UPDATED) then Outcome(Acknowledged, None)
      else
        match Extract(payload)
        case Raise(_) => Outcome(InternalError, None)
        case Ok(l) =>
          match IsBad(l.mainStatus, l.subStatus)
          case Raise(_) => Outcome(InternalError, None)
          case Ok(bad) =>
            if !bad then Outcome(Acknowledged, None)
            else
              var alert := Compose(host.show, l);
              Outcome(if host.sendAlert(alert.subject, alert.body) then Acknowledged else InternalError,
                      Some(alert))
  }

  /** A request without a `sign` header, or with one that is blank, is turned
      away with 401 before the payload is looked at. */
  lemma BlankSignRejected(host: Host, req: Request)
    requires req.sign.None? || AllSpace(req.sign.value)
    ensures Handle(host, req) == Outcome(Unauthorized, None)
  {
    var h := if req.sign.Some? then req.sign.value else "";
    LowerKeepsSpace(h);
    StripAllSpace(h);
  }

  /** The received signature is compared case-insensitively and with
      surrounding whitespace ignored: a header holding the digest in any mix of
      cases, padded with whitespace, is accepted. */
  lemma CaseAndPaddingIgnored(host: Host, req: Request, ws1: string, v: string, ws2: string)
    requires IsLowerHex(ComputedSign(host, req)) && ComputedSign(host, req) != ""
    requires req.sign == Some(ws1 + v + ws2) && AllSpace(ws1) && AllSpace(ws2)
    requires Lower(v) == ComputedSign(host, req)
    ensures Authentic(host, req)
  {
    var d := ComputedSign(host, req);
    LowerAppend(ws1 + v, ws2);
    LowerAppend(ws1, v);
    LowerKeepsSpace(ws1);
    LowerKeepsSpace(ws2);
    assert !IsSpace(d[0]) && !IsSpace(d[|d| - 1]) by {
      assert IsLowerHexDigit(d[0]) && IsLowerHexDigit(d[|d| - 1]);
    }
    StripPadded(ws1, d, ws2);
  }

  /** An authenticated request whose body did not parse, or parsed to a falsy
      value such as `{}`, `[]` or `null`, is acknowledged without an alert. */
  lemma UnusablePayloadAcknowledged(host: Host, json: Option<Json>)
    requires json.None? || !Truthy(json.value)
    ensures Process(host, json) == Outcome(Acknowledged, None)
  {
  }

  /** On a payload that carries a tracking event, the handler's lookups
      find exactly the event's number, status and sub status, with None for
      the absent ones, whatever other keys the payload holds. */
  lemma {:induction false} ExtractCarried(p: Json, e: Event)
    requires Carries(p, e)
    ensures Extract(p).Ok?
    ensures Extract(p).value.number == FromOption(NumberOf(e))
    ensures Extract(p).value.mainStatus == FromOption(StatusOf(e))
    ensures Extract(p).value.subStatus == FromOption(SubStatusOf(e))
  {
    var data := if e.data.Some? then p.fields["data"] else Empty;
    assert Get(p, "data", Empty) == Ok(data);
    assert Get(data, "number", JNull) == Ok(FromOption(NumberOf(e)));
    var trackInfo := if "track_info" in data.fields then data.fields["track_info"] else JNull;
    assert Get(data, "track_info", JNull) == Ok(trackInfo);
    var info := Or(trackInfo, Empty);
    assert info.JObj?;
    var latestStatus := if "latest_status" in info.fields then info.fields["latest_status"] else JNull;
    assert Get(info, "latest_status", JNull) == Ok(latestStatus);
    var latest := Or(latestStatus, Empty);
    assert latest.JObj?;
    assert Get(latest, "status", JNull) == Ok(FromOption(StatusOf(e)));
    assert Get(latest, "sub_status", JNull) == Ok(FromOption(SubStatusOf(e)));
  }

  /** `or {}`: a `track_info` that is absent or falsy, or a dict `track_info`
      whose `latest_status` is absent or falsy, leaves an empty status object,
      so both statuses read as None and nothing raises after `data.get`. */
  lemma FalsyStatusObjectDefaults(fields: map<string, Json>, data: map<string, Json>)
    requires "data" in fields && fields["data"] == JObj(data)
    requires var info := if "track_info" in data then data["track_info"] else JNull;
      !Truthy(info) ||
      (info.JObj? && ("latest_status" !in info.fields || !Truthy(info.fields["latest_status"])))
    ensures Extract(JObj(fields)) == Ok(Latest(if "number" in data then data["number"] else JNull, JNull, JNull, Empty))
  {
  }

  /** For an authenticated request whose payload carries a tracking event,
      whatever fields it leaves out and whatever further keys it holds: an
      alert is composed exactly when the event is alertable; otherwise the
      reply is 200 "ok"; and an alert's subject is the prefix followed by the
      tracking number (or "None" when there is none), the reply being 200
      exactly when sending it succeeded. */
  lemma {:induction false} TrackingEventOutcome(host: Host, p: Json, e: Event)
    requires Carries(p, e)
    ensures Process(host, Some(p)).alert.Some? <==> Alertable(e)
    ensures !Alertable(e) ==> Process(host, Some(p)) == Outcome(Acknowledged, None)
    ensures Alertable(e) ==>
      var o := Process(host, Some(p));
      o.alert.value.subject == SubjectPrefix + (if NumberOf(e).Some? then NumberOf(e).value else "None") &&
      (o.reply == Acknowledged <==> host.sendAlert(o.alert.value.subject, o.alert.value.body))
  {
    assert Payload(Some(p)) == p;
    ExtractCarried(p, e);
    IsBadOnOptionalStrings(StatusOf(e), SubStatusOf(e));
    assert Get(p, "event", JNull) == Ok(FromOption(e.event));
    var l := Extract(p).value;
    var a := Compose(host.show, l);
    assert a.subject == a.subject[..|SubjectPrefix|] + a.subject[|SubjectPrefix|..];
  }

  /** A tracking update whose `data` is present but not a dict (`null`, say)
      makes `data.get` raise, so the framework answers 500 and no alert goes out. */
  lemma NonDictDataRaises(host: Host, fields: map<string, Json>)
    requires "event" in fields && fields["event"] == JStr(TRACKING_UPDATED)
    requires "data" in fields && !fields["data"].JObj?
    ensures Process(host, Some(JObj(fields))) == Outcome(InternalError, None)
  {
  }

  /** A correctly signed update reporting DeliveryFailure / DeliveryFailure_Rejected
      for TN123 sends one alert whose subject names TN123, and is acknowledged
      with 200 exactly when the relay accepts it. */
  lemma RejectedDeliveryAlerts(host: Host)
    ensures
      var o := Process(host, Some(ToJson(Event(Some(TRACKING_UPDATED), Some(TrackData(Some("TN123"),
        Some(TrackInfo(Some(LatestStatus(Some("DeliveryFailure"), Some("DeliveryFailure_Rejected")))))))))));
      o.alert.Some? && o.alert.value.subject == SubjectPrefix + "TN123" &&
      (o.reply == Acknowledged <==> host.sendAlert(o.alert.value.subject, o.alert.value.body))
  {
    var e := Event(Some(TRACKING_UPDATED), Some(TrackData(Some("TN123"),
      Some(TrackInfo(Some(LatestStatus(Some("DeliveryFailure"), Some("DeliveryFailure_Rejected"))))))));
    ToJsonCarries(e);
    TrackingEventOutcome(host, ToJson(e), e);
  }

  /** A correctly signed update reporting InTransit with an empty sub status is
      acknowledged with 200 and sends nothing. */
  lemma InTransitIsQuiet(host: Host, number: Option<string>)
    ensures Process(host, Some(ToJson(Event(Some(TRACKING_UPDATED), Some(TrackData(number,
      Some(TrackInfo(Some(LatestStatus(Some("InTransit"), Some("")))))))))))
      == Outcome(Acknowledged, None)
  {
    var e := Event(Some(TRACKING_UPDATED), Some(TrackData(number,
      Some(TrackInfo(Some(LatestStatus(Some("InTransit"), Some(""))))))));
    ToJsonCarries(e);
    TrackingEventOutcome(host, ToJson(e), e);
  }
}
